=== FILE: README.md ===
# Single-tape Turing machine engine, in Dafny

This project models the execution engine of a small Go program that simulates a
deterministic single-tape Turing machine. The engine has two parts, both inline in `main`:

- **Table build.** Rule records `(current, read, next, action)` are folded, first
  to last, into a map. The key is the string `current + read` and the value is the
  instruction `(next, action)`. A later record with the same key overwrites an
  earlier one.
- **Step loop.** The loop runs on the machine record `(state, halt, head)` and the
  tape string. It stops as soon as `state == halt`. Otherwise it looks up
  `state + tape[head]` and enters the instruction's next state, then applies the
  action:
  - `"<-"` moves left, and fails at cell 0;
  - `"->"` moves right, first appending `_` when the head is on the last cell;
  - any other string is spliced in place of the cell under the head.

A run starts with tape `"^" + input` and the head at 1.

The modules are:

- `Results`: `Option` and `Result`.
- `TransitionTable`: rules, instructions, the fold, lookup, and reading rules from raw records.
- `Tape`: the initial tape, the two moves and the splice.
- `Engine`: the machine record, configurations and one `Step`.
- `Execution`: a fuel-bounded `Run`, the imperative loop `Execute`, and the run-level invariants.

Three behaviours of the program are modelled as written, although a stricter engine would differ:

- A key missing from the table yields Go's zero instruction `("", "")`. It does not
  raise an "unknown transition" error. That instruction makes the state empty and
  deletes the cell under the head (`Engine.MissingKey`).
- Actions stay raw strings. A write of zero or several characters is spliced as
  written, so the tape can shrink or grow by more than one cell. It is not rejected
  when the table is built.
- The tape never shrinks and the head stays on the tape under two conditions
  (`Execution.RunKeepsInv`). The first is a table that is complete over an
  alphabet holding every tape symbol, the marker `^` included
  (`Execution.Complete`). Complete means that every action is a move or a
  one-symbol write, and that every state an entry enters, other than the halting
  state, has an entry for every symbol. The second is a start whose head is on the
  tape, which needs a non-empty input, and whose initial state, unless it halts,
  has an entry for every symbol (`Execution.Inv`). Together the conditions are
  sufficient, not necessary: the unary incrementer halts with its head on the
  tape but meets them for no alphabet (`Execution.UnaryIncrementOutsideInv`).
  Completeness alone is not enough: the empty table is complete over `{_, ^, 1}`,
  yet on input "1" it deletes the only input cell and then reads past the tape
  (`Execution.EmptyTableLeavesTape`).

Run-time panics of the Go program become values:

- reading past the end of the tape is `IndexOutOfRange(index, length)`;
- a left move from cell 0 is `HeadUnderflow`;
- a record with fewer than four fields is `ShortRecord(index, fields)`.

## Model

| member | source | states |
|---|---|---|
| TransitionTable.FromRecords | turingmachine.go:37-42 | Rules come from the first four fields of each record, in order. The build succeeds iff every record has at least four fields. Otherwise it reports the first short record and its field count. |
| TransitionTable.BuildTable | turingmachine.go:36-48 | A key is in the table iff some rule has that key. The last rule's instruction is always stored under its key. |
| TransitionTable.Build | turingmachine.go:36-48 | The loop that stores one rule per iteration yields the folded table. Its keys are exactly the keys of the rules. |
| TransitionTable.Lookup | turingmachine.go:67 | A present key yields its entry. An absent key yields the zero instruction, with empty next state and empty action. |
| TransitionTable.LastWriteWins | turingmachine.go:37-48 | If no later rule shares rule i's key, the table holds rule i's instruction under that key. |
| TransitionTable.EntryIsLastWrite | turingmachine.go:37-48 | Every entry is the instruction of a rule with that key that no later rule overwrites. |
| TransitionTable.OtherKeysUnaffected | turingmachine.go:43-47 | Appending rules whose keys all differ from k changes neither the membership of k nor its lookup. |
| TransitionTable.KeyInjective | turingmachine.go:38-43 | When read symbols are one character, equal keys mean equal states and equal symbols. |
| TransitionTable.KeysCollideWithoutSingleCharReads | turingmachine.go:43 | With a two-character read field, rules for different (state, symbol) pairs share a key. |
| TransitionTable.LookupFindsLastRule | turingmachine.go:65-67 | When every rule reads one character, the step's lookup of state plus symbol is the instruction of the last rule with that state and symbol, compared field by field. It is the zero instruction when no rule matches. |
| TransitionTable.DuplicateKeyExample | turingmachine.go:36-48 | Of two records with key "s0", the later one, ("h", "->"), is the entry. |
| Tape.New | turingmachine.go:23 | The initial tape is one cell longer than the input, starts with the marker `^`, and continues with the input. |
| Tape.MoveLeft | turingmachine.go:71-76 | A left move fails iff the head is 0. Otherwise the new head is one less. |
| Tape.MoveRight | turingmachine.go:77-82 | The head advances by one and stays on the tape. The old tape is a prefix of the new one. Exactly one blank `_` is appended iff the head was on the last cell. |
| Tape.Splice | turingmachine.go:83-84 | The new tape is the prefix before the head, then the written string, then the suffix after the head. A one-character write keeps the length, sets the head cell and leaves every other cell alone. |
| Engine.Initial | turingmachine.go:22-30 | The run starts in the given states with head 1 on the tape `^` + input. The head is on the tape iff the input is non-empty. |
| Engine.Step | turingmachine.go:55-85 | A step halts iff state equals halt, so no lookup happens in the halting state. It fails with IndexOutOfRange iff the head is off the tape. It fails with HeadUnderflow iff the action is "<-" at head 0. Every completed step enters the looked-up next state and keeps the halting state. |
| Engine.HaltingStateSkipsLookup | turingmachine.go:57-59 | In the halting state a step yields Halted before any read or lookup, whatever the table holds and even with the head off the tape. |
| Engine.LeftMove | turingmachine.go:71-76 | A "<-" action fails at head 0. Otherwise it lowers the head by one and leaves the tape unchanged. |
| Engine.RightMove | turingmachine.go:77-82 | A "->" action raises the head by one and keeps it on the tape. The tape gains one `_` iff the head was on the last cell and is otherwise unchanged. |
| Engine.WriteSymbol | turingmachine.go:83-84 | A one-character write keeps the head and the tape length. The head cell becomes the symbol, and all other cells are unchanged. |
| Engine.Write | turingmachine.go:65-85 | Any present action other than the two moves is spliced in whatever its length: the state becomes the entry's next state, the head stays, the tape length changes by the action's length less one, and the cells before and after the head cell are kept. |
| Engine.MissingKey | turingmachine.go:67-84 | A missing key makes the state empty and deletes the head cell. The tape shrinks by one, and the head falls off the tape iff it was on the last cell. |
| Engine.MissingKeyThenReadFails | turingmachine.go:65-84 | After a missing key on the last cell, the next step reads past the end of the tape, unless the empty state is the halting state. |
| Engine.EmptyInputFirstReadFails | turingmachine.go:23-65 | With an empty input and initial state different from halt, the first read is out of range (index 1, length 1). |
| Execution.Run | turingmachine.go:55-90 | A run that starts halted is Done at once with the configuration unchanged. A Done run ends in the halting state. An out-of-fuel run ends in a non-halting state. A crash reports the configuration whose step fails, with that step's fault. |
| Execution.RunFollowsSteps | turingmachine.go:55-90 | Every outcome of a run is reached from the start by completed steps of `Engine.Step`. A Done run halts after at most fuel steps. A crash happens at a configuration reached after fewer than fuel steps. An out-of-fuel run stops after exactly fuel steps. |
| Execution.Execute | turingmachine.go:55-90 | The loop on mutable state, head and tape ends exactly as the fuel-bounded functional run does. |
| Execution.ImmediateHalt | turingmachine.go:23-59 | If the initial state is the halting state, every run is Done with head 1 and tape `^` + input. |
| Execution.MoreFuelSameEnd | turingmachine.go:55-90 | A run that halted or crashed ends the same way with any larger step budget. |
| Execution.RunsCompose | turingmachine.go:55-90 | When a run of n steps ran out of fuel, running m more steps from where it stopped is the same as running n + m steps. |
| Execution.StepKeepsInv | turingmachine.go:65-85 | Under a complete table, a step halts, fails only at a "<-" from cell 0, or keeps the head on the tape and the symbols in the alphabet. The tape grows by at most one cell and never shrinks. |
| Execution.RunKeepsInv | turingmachine.go:55-90 | Under a complete table, a run of any length from a configuration meeting the invariant keeps the invariant and never shrinks the tape. Its only possible fault is HeadUnderflow at head 0. |
| Execution.CompleteTableKeepsHeadOnTape | turingmachine.go:23-90 | From a non-empty input over an alphabet holding `^`, with an initial state that halts or has an entry for every symbol, a complete table never reads past the tape. A halted run leaves the head on the tape. |
| Execution.UnaryIncrement | turingmachine.go:23-90 | The two-rule unary incrementer on input "11" halts within three steps, with tape "^111" and head 3. |
| Execution.EmptyTableLeavesTape | turingmachine.go:55-85 | The empty table is complete over `{_, ^, 1}`, yet from input "1" one step leaves tape "^" with the head at 1 and the state empty, and the second step reads past the end of the tape. |
| Execution.UnaryIncrementOutsideInv | turingmachine.go:23-48 | The same incrementer's start meets the run invariant for no alphabet, since the table has no entry for state "s" reading the marker `^`. |

## Left out

- Command-line flags (initial state, halting state, input, table path) are not modelled. The states and the input become parameters of `Engine.Initial`. The table path is not modelled; the records read from that file become the parameter of `TransitionTable.FromRecords`.
- Reading and parsing the CSV table file is not modelled, because it is file I/O done by a library. `TransitionTable.FromRecords` takes its output as `seq<seq<string>>`. The CSV reader's own checks are not modelled: the uniform field count, quoting, and its read and parse errors.
- Clearing the terminal, printing each frame and the 250 ms pause are not modelled. They have no effect on the computation.
- Process termination by `panic` and by the Go runtime's index checks is not modelled. It becomes the `Fault` and `TableError` values. The state update that happens just before the left-move panic is not observable and is dropped.
- Go string indexing works on bytes, and `string(byte)` turns a byte of 0x80 or above into a two-byte key. The model treats every symbol as one `char`.
- The head is an unbounded `nat`, so Go's `int` overflow is not modelled. It would need more than 2^63 right moves.
- Execution.Run: its own contract speaks only of how a run ends; that each outcome is reached by steps of `Engine.Step` is stated by `Execution.RunFollowsSteps`. A machine that never halts cannot be run to completion. Every run carries a step budget, and such a machine shows as `OutOfFuel` at every budget.

=== FILE: engine.dfy ===
/**
  One step of the machine. A configuration is the machine record (state,
  halting state, head) together with the tape. A step stops at once in the
  halting state; otherwise it looks up the current state followed by the symbol
  under the head, enters the instruction's next state and applies its action:
  "<-" moves left, "->" moves right, and any other string replaces the cell
  under the head.
 */
module Engine {
  import opened TransitionTable
  import Tape

  /** The machine record: current state, halting state and head position. */
  datatype Machine = Machine(state: string, halt: string, head: nat)

  /** A machine record together with its tape. */
  datatype Config = Config(m: Machine, tape: string)

  /** Why a step cannot be completed: a left move from cell 0, or a read at
      a head that is past the end of the tape. */
  datatype Fault = HeadUnderflow | IndexOutOfRange(index: nat, length: nat)

  /** The outcome of one step. */
  datatype StepResult = Halted | Next(after: Config) | Crash(fault: Fault)

  /** The action that moves the head one cell to the left. */
  const LeftAction := "<-"

  /** The action that moves the head one cell to the right. */
  const RightAction := "->"

  /** The configuration a run starts from: the marked input tape with the head
      on the first input symbol. */
  function Initial(initial: string, halt: string, input: string): (c: Config)
    ensures c.m.state == initial && c.m.halt == halt && c.m.head == 1
    ensures |c.tape| == |input| + 1 && c.tape[0] == Tape.Marker && c.tape[1..] == input
    ensures c.m.head < |c.tape| <==> input != ""
  {
    Config(Machine(initial, halt, 1), Tape.New(input))
  }

  /** The head lies on a cell of the tape. */
  predicate HeadInRange(c: Config) {
    c.m.head < |c.tape|
  }

  /** The table key a step looks up: the state followed by the symbol under the head. */
  function ReadKey(c: Config): string
    requires HeadInRange(c)
  {
    c.m.state + [c.tape[c.m.head]]
  }

  /** The instruction a step applies. */
  function Fetch(table: Table, c: Config): Instruction
    requires HeadInRange(c)
  {
    Lookup(table, ReadKey(c))
  }

  /** One step of the machine. */
  function Step(table: Table, c: Config): (r: StepResult)
    ensures r.Halted? <==> c.m.state == c.m.halt
    ensures r == Crash(IndexOutOfRange(c.m.head, |c.tape|)) <==>
      c.m.state != c.m.halt && !HeadInRange(c)
    ensures r == Crash(HeadUnderflow) <==>
      c.m.state != c.m.halt && HeadInRange(c) && Fetch(table, c).action == LeftAction && c.m.head == 0
    ensures r.Next? ==>
      && HeadInRange(c)
      && r.after.m.state == Fetch(table, c).next
      && r.after.m.halt == c.m.halt
  {
    if c.m.state == c.m.halt then Halted
    else if !HeadInRange(c) then Crash(IndexOutOfRange(c.m.head, |c.tape|))
    else
      var instr := Fetch(table, c);
      var m := c.m.(state := instr.next);
      if instr.action == LeftAction then
        match Tape.MoveLeft(c.m.head)
        case None => Crash(HeadUnderflow)
        case Some(h) => Next(Config(m.(head := h), c.tape))
      else if instr.action == RightAction then
        var (tape, h) := Tape.MoveRight(c.tape, c.m.head);
        Next(Config(m.(head := h), tape))
      else
        Next(Config(m, Tape.Splice(c.tape, c.m.head, instr.action)))
  }

  /** In the halting state a step stops before reading the tape or looking up
      the table, so neither the table nor the head position matters. */
  lemma HaltingStateSkipsLookup(table: Table, c: Config)
    requires c.m.state == c.m.halt
    ensures Step(table, c) == Halted
  {
  }

  /** A left move fails on cell 0 and otherwise moves the head back one cell
      and leaves the tape as it was. */
  lemma LeftMove(table: Table, c: Config)
    requires c.m.state != c.m.halt && HeadInRange(c)
    requires Fetch(table, c).action == LeftAction
    ensures c.m.head == 0 ==> Step(table, c) == Crash(HeadUnderflow)
    ensures c.m.head > 0 ==>
      Step(table, c) == Next(Config(Machine(Fetch(table, c).next, c.m.halt, c.m.head - 1), c.tape))
  {
  }

  /** A right move advances the head one cell; the tape gains exactly one
      blank when the head was on its last cell and is otherwise unchanged, so
      the head stays on the tape. */
  lemma RightMove(table: Table, c: Config)
    requires c.m.state != c.m.halt && HeadInRange(c)
    requires Fetch(table, c).action == RightAction
    ensures Step(table, c).Next?
    ensures Step(table, c).after.m.head == c.m.head + 1
    ensures HeadInRange(Step(table, c).after)
    ensures c.m.head == |c.tape| - 1 ==> Step(table, c).after.tape == c.tape + [Tape.Blank]
    ensures c.m.head < |c.tape| - 1 ==> Step(table, c).after.tape == c.tape
  {
  }

  /** Writing a single symbol replaces just the cell under the head: same
      length, same head, every other cell unchanged. */
  lemma WriteSymbol(table: Table, c: Config, sym: char)
    requires c.m.state != c.m.halt && HeadInRange(c)
    requires Fetch(table, c).action == [sym]
    ensures Step(table, c).Next?
    ensures Step(table, c).after.m.head == c.m.head
    ensures |Step(table, c).after.tape| == |c.tape|
    ensures Step(table, c).after.tape[c.m.head] == sym
    ensures forall i :: 0 <= i < |c.tape| && i != c.m.head ==>
      Step(table, c).after.tape[i] == c.tape[i]
  {
    assert [sym] != LeftAction && [sym] != RightAction;
  }

  /** Any action other than the two moves is spliced in place of the cell under
      the head, however long it is: the head stays, the tape changes length by
      the length of the action less one, and the cells before and after the head
      cell are kept. */
  lemma Write(table: Table, c: Config)
    requires c.m.state != c.m.halt && HeadInRange(c)
    requires ReadKey(c) in table
    requires Fetch(table, c).action != LeftAction && Fetch(table, c).action != RightAction
    ensures Step(table, c).Next?
    ensures Step(table, c).after.m.state == table[ReadKey(c)].next
    ensures Step(table, c).after.m.head == c.m.head
    ensures |Step(table, c).after.tape| + 1 == |c.tape| + |table[ReadKey(c)].action|
    ensures Step(table, c).after.tape[..c.m.head] == c.tape[..c.m.head]
    ensures Step(table, c).after.tape[c.m.head..c.m.head + |table[ReadKey(c)].action|]
         == table[ReadKey(c)].action
    ensures Step(table, c).after.tape[c.m.head + |table[ReadKey(c)].action|..]
         == c.tape[c.m.head + 1..]
  {
  }

  /** A key missing from the table yields the zero instruction: the state
      becomes empty and the cell under the head is deleted, so the tape shrinks
      by one and a head on the last cell falls off the end. */
  lemma MissingKey(table: Table, c: Config)
    requires c.m.state != c.m.halt && HeadInRange(c)
    requires ReadKey(c) !in table
    ensures Step(table, c).Next?
    ensures Step(table, c).after.m.state == ""
    ensures Step(table, c).after.m.head == c.m.head
    ensures Step(table, c).after.tape == c.tape[..c.m.head] + c.tape[c.m.head + 1..]
    ensures |Step(table, c).after.tape| == |c.tape| - 1
    ensures c.m.head == |c.tape| - 1 <==> !HeadInRange(Step(table, c).after)
  {
  }

  /** After a missing key on the last cell, the next step reads past the end
      of the tape unless the empty state is the halting state. */
  lemma MissingKeyThenReadFails(table: Table, c: Config)
    requires c.m.state != c.m.halt && c.m.halt != "" && HeadInRange(c)
    requires ReadKey(c) !in table && c.m.head == |c.tape| - 1
    ensures Step(table, c).Next?
    ensures Step(table, Step(table, c).after) == Crash(IndexOutOfRange(c.m.head, c.m.head))
  {
    MissingKey(table, c);
  }

  /** With an empty input the head starts past the end of the tape, so the
      first step fails unless the machine starts in the halting state. */
  lemma EmptyInputFirstReadFails(table: Table, initial: string, halt: string)
    requires initial != halt
    ensures Step(table, Initial(initial, halt, "")) == Crash(IndexOutOfRange(1, 1))
  {
  }
}

=== FILE: execution.dfy ===
/**
  Running the machine: steps repeated until the halting state, a fault, or the
  step budget runs out. Halting is not guaranteed, so every run carries fuel,
  the number of steps it may take.
 */
module Execution {
  import opened TransitionTable
  import opened Engine
  import Tape

  /** How a run ends: in the halting state, at a step that faults (with the
      configuration it faulted in), or with fuel exhausted. */
  datatype RunResult = Done(final: Config) | Crashed(fault: Fault, at: Config) | OutOfFuel(last: Config)

  /** `d` is reached from `c` by `n` completed steps, none of them taken in
      the halting state. */
  ghost predicate Reaches(table: Table, c: Config, n: nat, d: Config)
    decreases n
  {
    if n == 0 then d == c
    else
      && c.m.state != c.m.halt
      && Step(table, c).Next?
      && Reaches(table, Step(table, c).after, n - 1, d)
  }

  /** At most `fuel` steps from `c`; the halting state is tested before each step. */
  function Run(table: Table, c: Config, fuel: nat): (r: RunResult)
    decreases fuel
    ensures c.m.state == c.m.halt ==> r == Done(c)
    ensures r.Done? ==> r.final.m.state == r.final.m.halt == c.m.halt
    ensures r.OutOfFuel? ==> r.last.m.state != r.last.m.halt == c.m.halt
    ensures r.Crashed? ==> r.at.m.halt == c.m.halt && Step(table, r.at) == Crash(r.fault)
  {
    if c.m.state == c.m.halt then Done(c)
    else if fuel == 0 then OutOfFuel(c)
    else
      var s := Step(table, c);
      if s.Crash? then Crashed(s.fault, c)
      else Run(table, s.after, fuel - 1)
  }

  /** Every outcome of a run is reached from its start by completed steps: a
      halt within the fuel, a fault at a configuration reached before the fuel
      ran out, and an exhausted budget after exactly `fuel` steps. */
  lemma {:induction false} RunFollowsSteps(table: Table, c: Config, fuel: nat)
    decreases fuel
    ensures Run(table, c, fuel).Done? ==>
      exists n: nat :: n <= fuel && Reaches(table, c, n, Run(table, c, fuel).final)
    ensures Run(table, c, fuel).Crashed? ==>
      exists n: nat :: n < fuel && Reaches(table, c, n, Run(table, c, fuel).at)
    ensures Run(table, c, fuel).OutOfFuel? ==> Reaches(table, c, fuel, Run(table, c, fuel).last)
  {
    var r := Run(table, c, fuel);
    if c.m.state == c.m.halt || (fuel > 0 && Step(table, c).Crash?) {
      assert Reaches(table, c, 0, c);
    } else if fuel > 0 {
      var next := Step(table, c).after;
      RunFollowsSteps(table, next, fuel - 1);
      assert r == Run(table, next, fuel - 1);
      if r.Done? {
        var n: nat :| n <= fuel - 1 && Reaches(table, next, n, r.final);
        assert Reaches(table, c, n + 1, r.final);
      } else if r.Crashed? {
        var n: nat :| n < fuel - 1 && Reaches(table, next, n, r.at);
        assert Reaches(table, c, n + 1, r.at);
      }
    }
  }

  /** The step loop of the program, on mutable state, head and tape. */
  method Execute(table: Table, c0: Config, fuel: nat) returns (r: RunResult)
    ensures r == Run(table, c0, fuel)
    ensures r.Done? ==> r.final.m.state == c0.m.halt
  {
    var state, halt, tape := c0.m.state, c0.m.halt, c0.tape;
    var head: nat := c0.m.head;
    var n := fuel;
    while true
      invariant halt == c0.m.halt
      invariant Run(table, Config(Machine(state, halt, head), tape), n) == Run(table, c0, fuel)
      decreases n
    {
      var here := Config(Machine(state, halt, head), tape);
      if state == halt {
        return Done(here);
      }
      if n == 0 {
        return OutOfFuel(here);
      }
      if head >= |tape| {
        return Crashed(IndexOutOfRange(head, |tape|), here);
      }
      var key := state + [tape[head]];
      var result := Lookup(table, key);
      state := result.next;
      if result.action == LeftAction {
        if head == 0 {
          return Crashed(HeadUnderflow, here);
        }
        head := head - 1;
        assert Step(table, here) == Next(Config(Machine(state, halt, head), tape));
      } else if result.action == RightAction {
        if head == |tape| - 1 {
          tape := tape + [Tape.Blank];
        }
        head := head + 1;
        assert Step(table, here) == Next(Config(Machine(state, halt, head), tape));
      } else {
        tape := tape[..head] + result.action + tape[head + 1..];
        assert Step(table, here) == Next(Config(Machine(state, halt, head), tape));
      }
      RunUnfolds(table, here, n);
      n := n - 1;
    }
  }

  /** A run that is not over takes its first step and continues from there. */
  lemma RunUnfolds(table: Table, c: Config, fuel: nat)
    requires c.m.state != c.m.halt && fuel > 0 && Step(table, c).Next?
    ensures Run(table, c, fuel) == Run(table, Step(table, c).after, fuel - 1)
  {
  }

  /** A machine that starts in its halting state stops before any lookup and
      leaves the marked input tape as it was. */
  lemma ImmediateHalt(table: Table, state: string, input: string, fuel: nat)
    ensures Run(table, Initial(state, state, input), fuel)
         == Done(Config(Machine(state, state, 1), [Tape.Marker] + input))
  {
  }

  /** A run that ended before its fuel ran out ends the same way with more fuel. */
  lemma {:induction false} MoreFuelSameEnd(table: Table, c: Config, fuel: nat, extra: nat)
    requires !Run(table, c, fuel).OutOfFuel?
    decreases fuel
    ensures Run(table, c, fuel + extra) == Run(table, c, fuel)
  {
    if c.m.state != c.m.halt && fuel > 0 {
      var s := Step(table, c);
      if !s.Crash? {
        MoreFuelSameEnd(table, s.after, fuel - 1, extra);
      }
    }
  }

  /** Running `fuel` steps and then `more` steps is running `fuel + more` steps. */
  lemma {:induction false} RunsCompose(table: Table, c: Config, fuel: nat, more: nat)
    requires Run(table, c, fuel).OutOfFuel?
    decreases fuel
    ensures Run(table, c, fuel + more) == Run(table, Run(table, c, fuel).last, more)
  {
    if fuel > 0 {
      var s := Step(table, c);
      RunUnfolds(table, c, fuel);
      RunUnfolds(table, c, fuel + more);
      RunsCompose(table, s.after, fuel - 1, more);
    }
  }

  /** An action the tape can take without shrinking or growing by more than a
      cell: a move, or a write of exactly one symbol. */
  predicate ValidAction(a: string) {
    a == LeftAction || a == RightAction || |a| == 1
  }

  /** Every symbol of `alphabet` read in `state` has an entry. */
  ghost predicate Covers(table: Table, state: string, alphabet: set<char>) {
    forall ch {:trigger state + [ch]} :: ch in alphabet ==> state + [ch] in table
  }

  /** A table complete over `alphabet`: the blank is a symbol, every action is
      valid and writes only symbols, and every state an entry enters, other than
      the halting state, has an entry for every symbol. */
  ghost predicate Complete(table: Table, halt: string, alphabet: set<char>) {
    && Tape.Blank in alphabet
    && forall k {:trigger table[k]} :: k in table ==>
         && ValidAction(table[k].action)
         && (|table[k].action| == 1 ==> table[k].action[0] in alphabet)
         && (table[k].next != halt ==> Covers(table, table[k].next, alphabet))
  }

  /** The configuration invariant: the head is on the tape, the tape holds only
      symbols, and unless halted the current state has an entry for every symbol. */
  ghost predicate Inv(table: Table, alphabet: set<char>, c: Config) {
    && HeadInRange(c)
    && (forall i :: 0 <= i < |c.tape| ==> c.tape[i] in alphabet)
    && (c.m.state != c.m.halt ==> Covers(table, c.m.state, alphabet))
  }

  /** Under a complete table a step halts, fails only by a left move from cell
      0, or keeps the invariant without shrinking the tape. */
  lemma StepKeepsInv(table: Table, alphabet: set<char>, c: Config)
    requires Complete(table, c.m.halt, alphabet) && Inv(table, alphabet, c)
    ensures Step(table, c).Halted? || Step(table, c) == Crash(HeadUnderflow) || Step(table, c).Next?
    ensures Step(table, c).Next? ==>
      && Inv(table, alphabet, Step(table, c).after)
      && |c.tape| <= |Step(table, c).after.tape| <= |c.tape| + 1
  {
    if c.m.state != c.m.halt {
      assert c.tape[c.m.head] in alphabet;
      var k := ReadKey(c);
      assert k in table;
      var instr := table[k];
      assert ValidAction(instr.action);
      var s := Step(table, c);
      if s.Next? {
        var d := s.after;
        if instr.action == LeftAction {
          assert d.tape == c.tape;
        } else if instr.action == RightAction {
          RightMove(table, c);
        } else {
          WriteSymbol(table, c, instr.action[0]);
          assert forall i :: 0 <= i < |d.tape| ==> d.tape[i] in alphabet by {
            forall i | 0 <= i < |d.tape|
              ensures d.tape[i] in alphabet
            {
              if i != c.m.head {
                assert d.tape[i] == c.tape[i];
              }
            }
          }
        }
      }
    }
  }

  /** How a run from `c` may end under a complete table: a fault only at a left
      move from cell 0, otherwise a configuration that keeps the invariant on a
      tape no shorter than the one it started from. */
  ghost predicate EndsWithinInv(table: Table, alphabet: set<char>, c: Config, r: RunResult) {
    match r
    case Crashed(fault, at) => fault == HeadUnderflow && at.m.head == 0
    case Done(final) => Inv(table, alphabet, final) && |final.tape| >= |c.tape|
    case OutOfFuel(last) => Inv(table, alphabet, last) && |last.tape| >= |c.tape|
  }

  /** Under a complete table a run keeps the head on the tape and the tape
      never shrinks; the only fault it can meet is a left move from cell 0. */
  lemma {:induction false} RunKeepsInv(table: Table, alphabet: set<char>, c: Config, fuel: nat)
    requires Complete(table, c.m.halt, alphabet) && Inv(table, alphabet, c)
    decreases fuel
    ensures EndsWithinInv(table, alphabet, c, Run(table, c, fuel))
  {
    if c.m.state != c.m.halt && fuel > 0 {
      StepKeepsInv(table, alphabet, c);
      var s := Step(table, c);
      if s.Next? {
        RunKeepsInv(table, alphabet, s.after, fuel - 1);
        assert Run(table, c, fuel) == Run(table, s.after, fuel - 1);
      }
    }
  }

  /** The initial configuration meets the invariant when the input is non-empty
      and made of symbols and the initial state, unless it halts, has an entry for
      every symbol. */
  lemma InitialInv(table: Table, alphabet: set<char>, initial: string, halt: string, input: string)
    requires input != "" && Tape.Marker in alphabet
    requires forall i :: 0 <= i < |input| ==> input[i] in alphabet
    requires initial != halt ==> Covers(table, initial, alphabet)
    ensures Inv(table, alphabet, Initial(initial, halt, input))
  {
    var c := Initial(initial, halt, input);
    forall i | 0 <= i < |c.tape|
      ensures c.tape[i] in alphabet
    {
      if i > 0 {
        assert c.tape[i] == input[i - 1];
      }
    }
  }

  /** From the marked, non-empty input, a complete table never reads past the
      end of the tape: the run halts with the head on the tape, stops at a left
      move from cell 0, or uses up its fuel with the head on the tape. */
  lemma CompleteTableKeepsHeadOnTape(table: Table, alphabet: set<char>,
                                     initial: string, halt: string, input: string, fuel: nat)
    requires Complete(table, halt, alphabet)
    requires input != "" && Tape.Marker in alphabet
    requires forall i :: 0 <= i < |input| ==> input[i] in alphabet
    requires initial != halt ==> Covers(table, initial, alphabet)
    ensures !Run(table, Initial(initial, halt, input), fuel).Crashed? ||
      Run(table, Initial(initial, halt, input), fuel).fault == HeadUnderflow
    ensures Run(table, Initial(initial, halt, input), fuel).Done? ==>
      HeadInRange(Run(table, Initial(initial, halt, input), fuel).final)
  {
    var c := Initial(initial, halt, input);
    InitialInv(table, alphabet, initial, halt, input);
    RunKeepsInv(table, alphabet, c, fuel);
    assert EndsWithinInv(table, alphabet, c, Run(table, c, fuel));
  }

  /** The table of the unary incrementer: on a one keep walking right, on a
      blank write a one and halt. */
  lemma UnaryTable()
    ensures BuildTable([Rule("s", "1", "s", "->"), Rule("s", "_", "h", "1")])
         == map["s1" := Instruction("s", "->"), "s_" := Instruction("h", "1")]
  {
    var rules := [Rule("s", "1", "s", "->"), Rule("s", "_", "h", "1")];
    assert rules[..1][..0] == [] && rules[..1][0] == rules[0];
    assert Key(rules[0]) == "s1" && Key(rules[1]) == "s_";
    assert BuildTable(rules[..1]) == BuildTable([])["s1" := Instruction("s", "->")];
    assert BuildTable(rules[..1]) == map["s1" := Instruction("s", "->")];
  }

  /** Unary increment: walk right over the ones, extend the tape with a blank
      at the end and overwrite it with a one. */
  lemma UnaryIncrement()
    ensures Run(BuildTable([Rule("s", "1", "s", "->"), Rule("s", "_", "h", "1")]),
                Initial("s", "h", "11"), 3)
         == Done(Config(Machine("h", "h", 3), "^111"))
  {
    UnaryTable();
    var table := BuildTable([Rule("s", "1", "s", "->"), Rule("s", "_", "h", "1")]);
    var c0 := Initial("s", "h", "11");
    var c1 := Config(Machine("s", "h", 2), "^11");
    var c2 := Config(Machine("s", "h", 3), "^11_");
    var c3 := Config(Machine("h", "h", 3), "^111");
    assert ReadKey(c0) == "s1" && ReadKey(c1) == "s1" && ReadKey(c2) == "s_";
    assert Step(table, c0) == Next(c1);
    assert Step(table, c1) == Next(c2);
    assert Step(table, c2) == Next(c3);
  }

  /** The invariant is sufficient, not necessary: the unary incrementer halts
      with its head on the tape, yet its start meets the invariant for no
      alphabet, because the marker is a tape symbol and the table has no entry
      for the initial state reading it. */
  lemma UnaryIncrementOutsideInv(alphabet: set<char>)
    ensures !Inv(BuildTable([Rule("s", "1", "s", "->"), Rule("s", "_", "h", "1")]),
                 alphabet, Initial("s", "h", "11"))
  {
    UnaryTable();
    var table := BuildTable([Rule("s", "1", "s", "->"), Rule("s", "_", "h", "1")]);
    var c0 := Initial("s", "h", "11");
    assert c0.tape[0] == Tape.Marker && "s" + [Tape.Marker] == "s^";
    assert "s^" != "s1" && "s^" != "s_";
  }

  /** A complete table alone does not keep the head on the tape: the empty
      table is complete over the blank, the marker and the one, yet on input
      "1" its first step deletes the input cell and the next reads past the end. */
  lemma EmptyTableLeavesTape()
    ensures Complete(map[], "h", {Tape.Blank, Tape.Marker, '1'})
    ensures Run(map[], Initial("s", "h", "1"), 1) == OutOfFuel(Config(Machine("", "h", 1), "^"))
    ensures Run(map[], Initial("s", "h", "1"), 2)
         == Crashed(IndexOutOfRange(1, 1), Config(Machine("", "h", 1), "^"))
  {
    var c0 := Initial("s", "h", "1");
    assert ReadKey(c0) == "s1";
    assert Step(map[], c0) == Next(Config(Machine("", "h", 1), "^"));
  }
}

=== FILE: results.dfy ===
/** Failure-carrying values shared by the modules of the machine model. */
module Results {

  /** An optional value: an entry that may be absent. */
  datatype Option<+T> = None | Some(value: T) {

    /** The wrapped value, or `default` when there is none. */
    function GetOr(default: T): T {
      match this
      case Some(v) => v
      case None => default
    }
  }

  /** Either a value or the error that prevented computing it. */
  datatype Result<+R, +E> = Success(value: R) | Failure(error: E)
}

=== FILE: tape.dfy ===
/**
  The tape: a string of one-character symbols indexed from 0, together with the
  head movements and the in-place replacement the machine applies to it.
 */
module Tape {
  import opened Results

  /** The symbol put in front of the input so that the start of the tape shows. */
  const Marker := '^'

  /** The symbol appended when the head moves right off the last cell. */
  const Blank := '_'

  /** The initial tape: the marker followed by the input. */
  function New(input: string): (t: string)
    ensures |t| == |input| + 1
    ensures t[0] == Marker && t[1..] == input
  {
    [Marker] + input
  }

  /** The head one cell to the left, or nothing when it is already on cell 0. */
  function MoveLeft(head: nat): (r: Option<nat>)
    ensures r.None? <==> head == 0
    ensures r.Some? ==> r.value + 1 == head
  {
    if head == 0 then None else Some(head - 1)
  }

  /** The tape and head after one move to the right: the tape gains one blank
      exactly when the head was on its last cell. */
  function MoveRight(tape: string, head: nat): (r: (string, nat))
    requires head < |tape|
    ensures r.1 == head + 1 && r.1 < |r.0|
    ensures |r.0| == |tape| || |r.0| == |tape| + 1
    ensures r.0[..|tape|] == tape
    ensures |r.0| == |tape| + 1 <==> head == |tape| - 1
    ensures |r.0| == |tape| + 1 ==> r.0[|tape|] == Blank
  {
    var grown := if head == |tape| - 1 then tape + [Blank] else tape;
    (grown, head + 1)
  }

  /** The tape with the cell under the head replaced by the string `s`. */
  function Splice(tape: string, head: nat, s: string): (r: string)
    requires head < |tape|
    ensures |r| + 1 == |tape| + |s|
    ensures r[..head] == tape[..head]
    ensures r[head..head + |s|] == s
    ensures r[head + |s|..] == tape[head + 1..]
    ensures |s| == 1 ==> |r| == |tape| && r[head] == s[0]
    ensures |s| == 1 ==> forall i :: 0 <= i < |tape| && i != head ==> r[i] == tape[i]
  {
    tape[..head] + s + tape[head + 1..]
  }
}

=== FILE: transition_table.dfy ===
/**
  The transition table of the machine. The rule records are folded, in file
  order, into a map keyed by the concatenation of the current state and the
  symbol read; a later record with the same key overwrites an earlier one.
 */
module TransitionTable {
  import opened Results

  /** One rule record: current state, symbol read, next state, action. */
  datatype Rule = Rule(current: string, read: string, next: string, action: string)

  /** The value stored under a key: the state to enter and the action to apply. */
  datatype Instruction = Instruction(next: string, action: string)

  type Table = map<string, Instruction>

  /** A record that has fewer than the four fields a rule is read from. */
  datatype TableError = ShortRecord(index: nat, fields: nat)

  /** What a lookup of an absent key yields: the zero value of an instruction. */
  const Zero := Instruction("", "")

  /** The map key of a rule: its current state followed by the symbol it reads. */
  function Key(r: Rule): string {
    r.current + r.read
  }

  /** The instruction a rule stores under its key. */
  function InstructionOf(r: Rule): Instruction {
    Instruction(r.next, r.action)
  }

  /** Reads rules out of raw records, each record's first four fields in order;
      a record with fewer than four fields stops the build. */
  function FromRecords(records: seq<seq<string>>): (r: Result<seq<Rule>, TableError>)
    ensures r.Success? <==> forall i :: 0 <= i < |records| ==> |records[i]| >= 4
    ensures r.Success? ==>
      && |r.value| == |records|
      && forall i :: 0 <= i < |records| ==>
           r.value[i] == Rule(records[i][0], records[i][1], records[i][2], records[i][3])
    ensures r.Failure? ==>
      && r.error.index < |records|
      && r.error.fields == |records[r.error.index]| < 4
      && forall i :: 0 <= i < r.error.index ==> |records[i]| >= 4
  {
    if records == [] then Success([])
    else if |records[0]| < 4 then Failure(ShortRecord(0, |records[0]|))
    else
      var head := Rule(records[0][0], records[0][1], records[0][2], records[0][3]);
      match FromRecords(records[1..])
      case Failure(e) => Failure(ShortRecord(e.index + 1, e.fields))
      case Success(rest) => Success([head] + rest)
  }

  /** The table built by storing each rule, first to last, under its key. */
  function BuildTable(rules: seq<Rule>): (t: Table)
    ensures forall k :: k in t <==> exists i :: 0 <= i < |rules| && Key(rules[i]) == k
    ensures |rules| > 0 ==>
      t[Key(rules[|rules| - 1])] == InstructionOf(rules[|rules| - 1])
  {
    if rules == [] then map[]
    else
      var last := rules[|rules| - 1];
      var t := BuildTable(rules[..|rules| - 1]);
      assert forall i :: 0 <= i < |rules| - 1 ==> rules[..|rules| - 1][i] == rules[i];
      t[Key(last) := InstructionOf(last)]
  }

  /** The instruction under `k`, or the zero instruction when `k` is absent. */
  function Lookup(t: Table, k: string): (i: Instruction)
    ensures k in t ==> i == t[k]
    ensures k !in t ==> i.next == "" && i.action == ""
  {
    if k in t then t[k] else Zero
  }

  /** The table-building loop, storing one rule per iteration. */
  method Build(rules: seq<Rule>) returns (t: Table)
    ensures t == BuildTable(rules)
    ensures forall k :: k in t <==> exists i :: 0 <= i < |rules| && Key(rules[i]) == k
  {
    t := map[];
    for n := 0 to |rules|
      invariant t == BuildTable(rules[..n])
    {
      assert rules[..n + 1][..n] == rules[..n];
      t := t[Key(rules[n]) := InstructionOf(rules[n])];
    }
    assert rules[..|rules|] == rules;
  }

  /** The entry stored under a rule's key is that rule's instruction whenever
      no later rule has the same key. */
  lemma {:induction false} LastWriteWins(rules: seq<Rule>, i: nat)
    requires i < |rules|
    requires forall j :: i < j < |rules| ==> Key(rules[j]) != Key(rules[i])
    ensures Key(rules[i]) in BuildTable(rules)
    ensures BuildTable(rules)[Key(rules[i])] == InstructionOf(rules[i])
  {
    if i < |rules| - 1 {
      var prefix := rules[..|rules| - 1];
      assert prefix[i] == rules[i];
      LastWriteWins(prefix, i);
    }
  }

  /** Rule `i` has key `k` and no later rule has that key. */
  ghost predicate IsLastWith(rules: seq<Rule>, i: int, k: string) {
    && 0 <= i < |rules|
    && Key(rules[i]) == k
    && forall j :: i < j < |rules| ==> Key(rules[j]) != k
  }

  /** A key that some rule has has a last rule with it. */
  lemma {:induction false} LastWithExists(rules: seq<Rule>, k: string, i: nat)
    requires i < |rules| && Key(rules[i]) == k
    ensures exists j :: IsLastWith(rules, j, k)
  {
    var n := |rules| - 1;
    if Key(rules[n]) == k {
      assert IsLastWith(rules, n, k);
    } else {
      var prefix := rules[..n];
      assert prefix[i] == rules[i];
      LastWithExists(prefix, k, i);
      var j :| IsLastWith(prefix, j, k);
      assert forall m :: j < m < n ==> rules[m] == prefix[m];
      assert rules[j] == prefix[j];
      assert IsLastWith(rules, j, k);
    }
  }

  /** Every entry of the table comes from a rule with that key that no later
      rule overwrites. */
  lemma EntryIsLastWrite(rules: seq<Rule>, k: string)
    requires k in BuildTable(rules)
    ensures exists i :: IsLastWith(rules, i, k) && BuildTable(rules)[k] == InstructionOf(rules[i])
  {
    var i :| 0 <= i < |rules| && Key(rules[i]) == k;
    LastWithExists(rules, k, i);
    var j :| IsLastWith(rules, j, k);
    LastWriteWins(rules, j);
  }

  /** Appending rules whose keys all differ from `k` leaves the lookup of `k`
      unchanged. */
  lemma {:induction false} OtherKeysUnaffected(rules: seq<Rule>, more: seq<Rule>, k: string)
    requires forall i :: 0 <= i < |more| ==> Key(more[i]) != k
    ensures (k in BuildTable(rules + more)) == (k in BuildTable(rules))
    ensures Lookup(BuildTable(rules + more), k) == Lookup(BuildTable(rules), k)
  {
    if more == [] {
      assert rules + more == rules;
    } else {
      var shorter := more[..|more| - 1];
      assert (rules + more)[..|rules + more| - 1] == rules + shorter;
      OtherKeysUnaffected(rules, shorter, k);
    }
  }

  /** When read symbols are one character each, a key splits back into its
      state and symbol. */
  lemma KeyInjective(s1: string, r1: string, s2: string, r2: string)
    requires |r1| == 1 && |r2| == 1
    requires s1 + r1 == s2 + r2
    ensures s1 == s2 && r1 == r2
  {
    var k := s1 + r1;
    assert s1 == k[..|k| - 1] && r1 == k[|k| - 1..];
    assert s2 == k[..|k| - 1] && r2 == k[|k| - 1..];
  }

  /** With multi-character read fields two different rules can share a key. */
  lemma KeysCollideWithoutSingleCharReads()
    ensures Key(Rule("ab", "c", "x", "0")) == Key(Rule("a", "bc", "y", "1"))
  {
  }

  /** Every rule reads exactly one character. */
  predicate SingleCharReads(rules: seq<Rule>) {
    forall i :: 0 <= i < |rules| ==> |rules[i].read| == 1
  }

  /** Reference definition, by fields rather than by key: the instruction of the
      last rule for state `state` reading `sym`, if any. */
  function LastRuleFor(rules: seq<Rule>, state: string, sym: char): Option<Instruction> {
    if rules == [] then None
    else
      var last := rules[|rules| - 1];
      if last.current == state && last.read == [sym] then Some(InstructionOf(last))
      else LastRuleFor(rules[..|rules| - 1], state, sym)
  }

  /** The lookup the machine performs for state `state` reading `sym` yields the
      last matching rule's instruction, or the zero instruction when there is none,
      provided every rule reads one character. */
  lemma {:induction false} LookupFindsLastRule(rules: seq<Rule>, state: string, sym: char)
    requires SingleCharReads(rules)
    ensures Lookup(BuildTable(rules), state + [sym]) == LastRuleFor(rules, state, sym).GetOr(Zero)
  {
    if rules != [] {
      var n := |rules| - 1;
      var prefix := rules[..n];
      var last := rules[n];
      assert prefix + [last] == rules;
      if last.current == state && last.read == [sym] {
        assert Key(last) == state + [sym];
      } else {
        if Key(last) == state + [sym] {
          KeyInjective(last.current, last.read, state, [sym]);
        }
        assert SingleCharReads(prefix) by {
          assert forall i :: 0 <= i < n ==> prefix[i] == rules[i];
        }
        LookupFindsLastRule(prefix, state, sym);
        OtherKeysUnaffected(prefix, [last], state + [sym]);
      }
    }
  }

  /** Two records with the same key: the later one is the entry. */
  lemma DuplicateKeyExample()
    ensures Lookup(BuildTable([Rule("s", "0", "s", "1"), Rule("s", "0", "h", "->")]), "s0")
         == Instruction("h", "->")
  {
    var rules := [Rule("s", "0", "s", "1"), Rule("s", "0", "h", "->")];
    LastWriteWins(rules, 1);
  }
}
